=== FILE: README.md ===
# YAIndex file browser: scope check, listing strip and API errors

This project models the logic core of the YAIndex file browser's Rails back
end, in Dafny, and proves properties of the model.

- **Scope check** (`verify_path_in_scope` in the files controller). A
  requested path must lie inside the browser root, the directory named by
  `FILES_DIRECTORY`. The check is meant to walk from the path towards `/`,
  one parent directory at a time, and accept when it meets the browser root;
  as written it never steps (see below). Paths are
  canonical absolute paths, modelled as sequences of segments: `/srv/files`
  is `["srv", "files"]` and `/` is the empty sequence. Comparison is whole
  path against whole path, so `/srv/files-evil` is not inside `/srv/files`.
- **Forbidden guard** (`build_file_tree`). The method is private and
  nothing calls it: the only routed action is `list`, which takes no path and
  never runs the check. So the guard cannot be reached in the program. Even
  if it were called, as written no `ForbiddenError` could come out of it
  (see below). The model describes how the method is meant to behave once
  the loop (lines 21-25) and line 12 are fixed: a path outside the browser
  root fails with the default `ForbiddenError` before any other work.
- **Listing strip** (`list`). Each globbed path is meant to have the
  literal root text removed from its start; as written, the root text is
  also removed after every newline in the path (see below).
- **API error values** (`app/lib/api_error`). Each error is a record of
  HTTP code, type and message. The type is the class name after
  `ApiError::`. `retrieve_hash` is the JSON body the API renders.

Modules, one per file:

| file | module | contents |
|---|---|---|
| `wrappers.dfy` | `Wrappers` | `Option` (Ruby `nil` / omitted argument) and `Result` (value or raised error) |
| `paths.dfy` | `Paths` | segment paths, `Parent`, ancestor-or-self, the path's text and the textual containment lemma |
| `scope_check.dfy` | `ScopeCheck` | the loop under three readings, the intended recursive check, termination |
| `api_errors.dfy` | `ApiErrors` | `BaseApiError`, `ForbiddenError`, `UnauthoriedError`, `retrieve_hash` |
| `files_controller.dfy` | `FilesController` | `build_file_tree`'s guard, `list` as intended and as written |

### Where the code and its evident intent differ

The controller's scope check does not do what its comments say. The model keeps the code as written beside the intended version:

- The loop at `app/controllers/files_controller.rb:21-25` tests `ROOT_PATH`.
  The only constant the class defines is `SYSTEM_ROOT_PATH` (line 18). As
  written, any path other than the browser root raises `NameError`
  (`ScopeCheck.AsWrittenRaises`).
- With the constant name fixed, the loop body still never steps to the
  parent directory. Any path that is neither the browser root nor `/` loops
  forever (`ScopeCheck.ConstantFixedNeverReturns`).
- The intended walk steps to `path.parent` on each iteration. It stops
  within `|path| + 1` iterations, and it accepts exactly when the browser
  root is an ancestor-or-self of the path (`ScopeCheck.IntendedTerminates`,
  `ScopeCheck.VerifyPathInScope`). The rest of the model uses this walk.
- `build_file_tree` (line 12) raises `ApiError::Forbidden`, which does not
  exist; the class is `ApiError::ForbiddenError`. As written, the check never
  returns false (any path other than the browser root raises on
  `ROOT_PATH`), so line 12 never looks the name up. With only the constant
  fixed, the check returns false only for `/`, which then reaches line 12;
  with the parent step too, every path outside the browser root does.
  Resolving the name there raises `NameError`, which
  `ApiController`'s `rescue_from ApiError::BaseApiError` does not catch, so
  no 403 is rendered (`FilesController.ForbiddenNameErrorEscapes`, which
  models line 12 over the intended check). The rest of the model raises the
  default `ForbiddenError`.
- `build_file_tree` passes the relative path it received straight to the
  check. The model checks the canonical absolute path formed from the
  browser root and the request.
  That canonicalisation (symbolic links, `.` and `..`) is an input to the
  model. It is not computed.
- No tree builder exists behind the guard: `build_file_tree` ends after the
  guard, and `list_files` ignores its argument. Only the guard is modelled.

## Model

| member | source | states |
|---|---|---|
| Paths.Parent | app/controllers/files_controller.rb:21-25 | the intended parent step: `/` is its own parent, and any other path loses exactly its last segment |
| Paths.TextualContainment | app/controllers/files_controller.rb:19-27 | for well-formed segments, the root is an ancestor-or-self of the path exactly when the root is `/`, the two texts are equal, or the root text followed by `/` starts the path text |
| Paths.SiblingSharesTextualPrefix | app/controllers/files_controller.rb:19-27 | `/srv/files-evil` starts with the text `/srv/files` but is not below it, so a bare string-prefix test would be wrong |
| ScopeCheck.Iterate | app/controllers/files_controller.rb:18-26 | one test of the loop condition plus one body run: true is returned exactly for the browser root; only the as-written reading raises, and only off the root; under the two fixed readings `/` off the root returns false, and only `/` does; the constant-fixed body keeps the path; the intended body shortens it by one segment |
| ScopeCheck.Run | app/controllers/files_controller.rb:21-26 | the loop run for a bounded number of iterations: whenever it returns, under any reading, it returns whether the browser root is an ancestor-or-self of the path; it raises only as written and off the root; a still-running loop is at an ancestor-or-self of the start, and at the start itself unless the parent step is taken |
| ScopeCheck.VerifyPathInScope | app/controllers/files_controller.rb:19-27 | the intended walk accepts exactly when the browser root is an ancestor-or-self of the path (segment-wise prefix) |
| ScopeCheck.RootAcceptedAtOnce | app/controllers/files_controller.rb:21-26 | a path equal to the browser root is accepted on the first test, under every reading of the loop |
| ScopeCheck.AsWrittenRaises | app/controllers/files_controller.rb:18-24 | as written, any path other than the browser root raises `NameError` on the undefined `ROOT_PATH` |
| ScopeCheck.ConstantFixedNeverReturns | app/controllers/files_controller.rb:21-25 | with `ROOT_PATH` read as `SYSTEM_ROOT_PATH`, a path that is neither the root nor `/` is still looping on itself after any number of iterations |
| ScopeCheck.ConstantFixedRejectsSystemRoot | app/controllers/files_controller.rb:18-24 | with the constant fixed, `/` outside the browser root returns false |
| ScopeCheck.IntendedTerminates | app/controllers/files_controller.rb:19-27 | with the parent step, the loop returns within `|path| + 1` iterations, and what it returns is ancestor-or-self containment |
| ScopeCheck.SystemRootOutOfScope | app/controllers/files_controller.rb:18-24 | reaching `/` without meeting the browser root means out of scope |
| ScopeCheck.SiblingRejected | app/controllers/files_controller.rb:19-27 | the walk rejects `/srv/files-evil` for the root `/srv/files`, although the texts share a prefix |
| ScopeCheck.ScopeAsText | app/controllers/files_controller.rb:19-27 | for well-formed paths the walk agrees with the correct textual test (root text plus `/`) |
| ApiErrors.TypeOf | app/lib/api_error/base_api_error.rb:6 | the type is absent exactly when `ApiError::` does not occur in the class name; otherwise it is the text after the first occurrence, up to the first newline or the end |
| ApiErrors.TypeOfNamespaced | app/lib/api_error/base_api_error.rb:6 | a newline-free class name `ApiError::X` has type `X` |
| ApiErrors.TypeOfNestedNamespace | app/lib/api_error/base_api_error.rb:6 | only the first `ApiError::` is cut: `ApiError::ApiError::X` has type `ApiError::X` |
| ApiErrors.TypeOfOutsideNamespace | app/lib/api_error/base_api_error.rb:6 | a class name without `ApiError::` has no type (`nil`) |
| ApiErrors.NewApiError | app/lib/api_error/base_api_error.rb:5-9 | the HTTP code and message are stored as passed; the type is the scan result `TypeOf` of the class name, absent exactly when the class name lacks `ApiError::` |
| ApiErrors.RetrieveHash | app/lib/api_error/base_api_error.rb:11-13 | the hash has exactly the two keys `:error` and `:message`, holding the type (or `nil`) and the message |
| ApiErrors.RetrieveHashHidesCode | app/lib/api_error/base_api_error.rb:11-13 | changing the HTTP code does not change the hash |
| ApiErrors.Forbidden | app/lib/api_error/forbidden_error.rb:1-6 | code 403 always; message `"Forbidden."` when omitted, otherwise the given one; type `"ForbiddenError"` |
| ApiErrors.ForbiddenDefaultHash | app/lib/api_error/forbidden_error.rb:2-4 | the default forbidden error renders as `{error: "ForbiddenError", message: "Forbidden."}` |
| ApiErrors.Unauthoried | app/lib/api_error/unauthoried_error.rb:1-6 | code 401 always; message `"Access denied."` when omitted, otherwise the given one; type `"UnauthoriedError"`, misspelling kept |
| ApiErrors.UnauthoriedDefaultHash | app/lib/api_error/unauthoried_error.rb:2-4 | the default unauthorised error renders as `{error: "UnauthoriedError", message: "Access denied."}` |
| FilesController.BuildFileTree | app/controllers/files_controller.rb:10-14 | fails exactly when the canonical path is outside the browser root, and then with code 403 and the default forbidden body; otherwise succeeds; `Success(canonical)` only marks that the guard passed (the Ruby method returns `nil`) |
| FilesController.BuildFileTreeAsWritten | app/controllers/files_controller.rb:10-14 | line 12 as written, over the intended check: fails exactly when the canonical path is outside the browser root, and then with `NameError` on the undefined `ApiError::Forbidden` |
| FilesController.Rescue | app/controllers/api_controller.rb:2 | `rescue_from ApiError::BaseApiError` catches exactly the API errors, unchanged; a `NameError` is not rescued |
| FilesController.ForbiddenNameErrorEscapes | app/controllers/files_controller.rb:12 | on `/srv/files-evil` with root `/srv/files`, line 12 as written over the intended check raises an unrescued `NameError`, while the corrected guard yields the rescued 403 forbidden error |
| FilesController.RootIsBuilt | app/controllers/files_controller.rb:10-14 | the browser root itself passes the guard |
| FilesController.SiblingIsForbidden | app/controllers/files_controller.rb:10-14 | `/srv/files-evil` is forbidden for the root `/srv/files` |
| FilesController.StripRoot | app/controllers/files_controller.rb:4 | for a path starting with the root text, root text plus result gives back the path; any other path is returned unchanged; the result differs from the input exactly when a non-empty root starts it |
| FilesController.List | app/controllers/files_controller.rb:2-6 | one output per globbed path, in order; each is the path without its leading root text, or the path itself when it does not start with the root |
| FilesController.ListConcat | app/controllers/files_controller.rb:3-5 | `list` is a per-path map: listing a concatenation concatenates the listings |
| FilesController.GsubLineStarts | app/controllers/files_controller.rb:4 | the written `gsub` with `^`: root text removed at every line start; never lengthens the path |
| FilesController.ListAsWritten | app/controllers/files_controller.rb:2-6 | the written `list`: one output per path, none longer than its input |
| FilesController.GsubMidLine | app/controllers/files_controller.rb:4 | away from a line start, a newline-free path passes through the written `gsub` unchanged |
| FilesController.GsubAgreesWithoutNewlines | app/controllers/files_controller.rb:4 | on a newline-free path the written `gsub` equals the intended strip |
| FilesController.ListAgreesWithoutNewlines | app/controllers/files_controller.rb:3-5 | when no globbed path holds a newline, the written `list` equals the intended one |
| FilesController.GsubStripsAfterNewline | app/controllers/files_controller.rb:4 | for root `/r` and the path `/r/a⏎/r`, the written `gsub` yields `/a⏎`, and root plus that is not the path; the intended strip yields `/a⏎/r` |
| FilesController.StripIsLiteral | app/controllers/files_controller.rb:4 | the root is matched literally: a `.` in the root matches only a `.` |

## Findings

| source | as written | input that shows it | evidently intended | confidence | as-written member | corrected member |
|---|---|---|---|---|---|---|
| app/controllers/files_controller.rb:21-25 | the loop body never assigns `path = path.parent`, so the path never changes | root `/srv/files`, path `/srv` (with `ROOT_PATH` read as `SYSTEM_ROOT_PATH`): the loop never exits | step to the parent directory on each iteration | high; not executed | ScopeCheck.ConstantFixedNeverReturns | ScopeCheck.IntendedTerminates |
| app/controllers/files_controller.rb:22 | the body compares against `ROOT_PATH`, which is never defined; line 18 defines `SYSTEM_ROOT_PATH` | root `/srv/files`, path `/srv`: `NameError` on the first iteration | compare against `SYSTEM_ROOT_PATH` | high; not executed | ScopeCheck.AsWrittenRaises | ScopeCheck.ConstantFixedRejectsSystemRoot |
| app/controllers/files_controller.rb:12 | raises `ApiError::Forbidden`, a class that does not exist, so `NameError` is raised and `rescue_from ApiError::BaseApiError` does not render a 403; hidden as written because the check never returns false; it appears once the constant at line 22 is fixed (on `/`) or once the whole loop at lines 21-25 is fixed (on every path outside the root) | with the loop fixed, root `/srv/files` and canonical path `/srv/files-evil`: `NameError` instead of the forbidden error | raise `ApiError::ForbiddenError` | high; not executed | FilesController.ForbiddenNameErrorEscapes | FilesController.BuildFileTree |
| app/controllers/files_controller.rb:4 | `^` in a Ruby regex anchors at every line start, so `gsub` also removes the root text after each newline in a path | root `/r`, globbed path `/r/a⏎/r` (a directory named `a⏎` holding `r`): result `/a⏎` instead of `/a⏎/r` | anchor at the start of the string only (`\A`) | medium; not executed | FilesController.GsubStripsAfterNewline | FilesController.List |

(⏎ stands for a newline character.)

## Left out

- `Dir.glob`, `Pathname` file system queries, symbolic link and `realpath` canonicalisation, and reads of `ENV["FILES_DIRECTORY"]`: file system and process I/O. The browser root, the canonical path of a request and the globbed paths are inputs.
- `Pathname` equality on non-canonical text (`/a/b/` against `/a/b`, `.`/`..` segments): paths are assumed canonical, so segment equality stands for it.
- A failed canonicalisation: the controller never canonicalises, so the model takes an already-canonical path and has no failure case for it.
- The relative path `build_file_tree` passes to the check, and `Pathname#parent` on relative paths: the model checks the joined canonical path.
- The recursive tree builder and `list_files`: the controller has no implementation (`build_file_tree` stops after the guard and `list_files` ignores its argument), so there is nothing to model.
- `@directory_regex` (files_controller.rb:38): built but never used.
- `ApiController`'s rendering, `render json: error.retrieve_hash, status: error.http_code` (api_controller.rb:4-6): `FilesController.Rescue` models only which exceptions `rescue_from` catches, not the response it renders.
- The web app and requests controllers, routes, the front-end video component and build configuration: request plumbing, persistence and browser code.
- Messages other than strings (for example an explicit `nil` argument): messages are modelled as strings, and an omitted argument is `None`.
- File names that are not valid UTF-8: Ruby's `gsub` raises `ArgumentError` ("invalid byte sequence in UTF-8") on such a globbed path, and the whole `list` action fails. The model treats paths as character sequences, so `StripRoot`, `List`, `GsubLineStarts` and `ListAsWritten` never fail.
- HTTP codes are unbounded integers; Ruby integers are unbounded too.
- FilesController.GsubLineStarts: its contract only bounds the output length; what it computes is stated by `GsubAgreesWithoutNewlines` (newline-free paths) and `GsubStripsAfterNewline` (the counterexample), because it models the code as written and the rest of the model uses `StripRoot`.
- FilesController.ListAsWritten: its contract only gives the count and a length bound per path; `ListAgreesWithoutNewlines` relates it to `List`, for the same reason.

=== FILE: api_errors.dfy ===
/**
 * The API error values of `app/lib/api_error`: a record of an HTTP status
 * code, a type name derived from the Ruby class name, and a message. The
 * request layer renders `RetrieveHash` as the JSON body and `httpCode` as the
 * status.
 */
module ApiErrors {
  import opened Wrappers

  /** The namespace prefix `BaseApiError#initialize` searches the class name for. */
  const Namespace: string := "ApiError::"

  const ForbiddenClass: string := "ApiError::ForbiddenError"
  const UnauthoriedClass: string := "ApiError::UnauthoriedError"

  const ForbiddenCode: int := 403
  const UnauthoriedCode: int := 401

  const ForbiddenDefaultMessage: string := "Forbidden."
  const UnauthoriedDefaultMessage: string := "Access denied."

  /** `errorType` is `None` when the class name has no `ApiError::` (Ruby's `nil`). */
  datatype ApiError = ApiError(httpCode: int, errorType: Option<string>, message: string)

  /** The two symbol keys of the hash `retrieve_hash` returns. */
  datatype HashKey = ErrorKey | MessageKey

  /** A hash value: a string or `nil`. */
  datatype HashValue = Nil | Str(text: string)

  predicate OccursAt(s: string, i: nat, pat: string) {
    i + |pat| <= |s| && s[i..i + |pat|] == pat
  }

  /** `i` is the leftmost place where `pat` occurs in `s`. */
  predicate IsFirstOccurrence(s: string, i: nat, pat: string) {
    OccursAt(s, i, pat) && forall j :: 0 <= j < i ==> !OccursAt(s, j, pat)
  }

  /** Leftmost occurrence of `pat` in `s` at or after `from`. */
  function FindFrom(s: string, pat: string, from: nat): (r: Option<nat>)
    requires from <= |s|
    ensures r.None? ==> forall i :: from <= i <= |s| ==> !OccursAt(s, i, pat)
    ensures r.Some? ==> from <= r.value && OccursAt(s, r.value, pat)
    ensures r.Some? ==> forall i :: from <= i < r.value ==> !OccursAt(s, i, pat)
    decreases |s| - from
  {
    if OccursAt(s, from, pat) then Some(from)
    else if from == |s| then None
    else FindFrom(s, pat, from + 1)
  }

  /** What `.*` matches in Ruby: everything up to the first newline or the end. */
  function RestOfLine(s: string): (line: string)
    ensures line <= s
    ensures '\n' !in line
    ensures |line| < |s| ==> s[|line|] == '\n'
  {
    if s == "" || s[0] == '\n' then ""
    else
      assert s[..1 + |RestOfLine(s[1..])|] == [s[0]] + RestOfLine(s[1..]);
      [s[0]] + RestOfLine(s[1..])
  }

  /**
   * `self.class.name.scan(/ApiError::(.*)/).flatten.first`: the text after the
   * first `ApiError::` in the class name, up to the end of that line; `None`
   * when the class name does not contain `ApiError::`.
   */
  function TypeOf(className: string): (t: Option<string>)
    ensures t.None? <==> forall i :: 0 <= i <= |className| ==> !OccursAt(className, i, Namespace)
    ensures t.Some? ==> exists i: nat :: IsFirstOccurrence(className, i, Namespace) &&
                                    t.value <= className[i + |Namespace|..] &&
                                    '\n' !in t.value &&
                                    (|t.value| == |className| - i - |Namespace| ||
                                     className[i + |Namespace| + |t.value|] == '\n')
  {
    match FindFrom(className, Namespace, 0)
    case None => None
    case Some(i) =>
      assert IsFirstOccurrence(className, i, Namespace);
      Some(RestOfLine(className[i + |Namespace|..]))
  }

  /** `BaseApiError#initialize`, run for an instance of the class named `className`. */
  function NewApiError(className: string, httpCode: int, message: string): (e: ApiError)
    ensures e.httpCode == httpCode && e.message == message
    ensures e.errorType == TypeOf(className)
    ensures e.errorType.None? <==> forall i :: 0 <= i <= |className| ==> !OccursAt(className, i, Namespace)
  {
    ApiError(httpCode, TypeOf(className), message)
  }

  /** `retrieve_hash`: the type under `:error` and the message under `:message`. */
  function RetrieveHash(e: ApiError): (h: map<HashKey, HashValue>)
    ensures h.Keys == {ErrorKey, MessageKey} && |h| == 2
    ensures e.errorType.None? ==> h[ErrorKey] == Nil
    ensures e.errorType.Some? ==> h[ErrorKey] == Str(e.errorType.value)
    ensures h[MessageKey] == Str(e.message)
  {
    var error := match e.errorType
      case None => Nil
      case Some(t) => Str(t);
    map[ErrorKey := error, MessageKey := Str(e.message)]
  }

  lemma {:induction false} RestOfLineWhole(s: string)
    requires '\n' !in s
    ensures RestOfLine(s) == s
  {
    if s != "" {
      assert s[0] in s;
      assert forall c :: c in s[1..] ==> c in s;
      RestOfLineWhole(s[1..]);
    }
  }

  /** A class name that starts with `ApiError::` and has no newline yields exactly the text after it. */
  lemma TypeOfNamespaced(name: string)
    requires '\n' !in name
    ensures TypeOf(Namespace + name) == Some(name)
  {
    var s := Namespace + name;
    assert s[0..|Namespace|] == Namespace;
    assert FindFrom(s, Namespace, 0) == Some(0);
    assert s[|Namespace|..] == name;
    RestOfLineWhole(name);
  }

  /** `ForbiddenError.new(message = "Forbidden.")`; `None` is the omitted argument. */
  function Forbidden(message: Option<string>): (e: ApiError)
    ensures e.httpCode == 403
    ensures message.None? ==> e.message == "Forbidden."
    ensures message.Some? ==> e.message == message.value
    ensures e.errorType == Some("ForbiddenError")
  {
    assert ForbiddenClass == Namespace + "ForbiddenError";
    TypeOfNamespaced("ForbiddenError");
    NewApiError(ForbiddenClass, ForbiddenCode, message.GetOr(ForbiddenDefaultMessage))
  }

  /** `UnauthoriedError.new(message = "Access denied.")`; the class name's spelling is kept. */
  function Unauthoried(message: Option<string>): (e: ApiError)
    ensures e.httpCode == 401
    ensures message.None? ==> e.message == "Access denied."
    ensures message.Some? ==> e.message == message.value
    ensures e.errorType == Some("UnauthoriedError")
  {
    assert UnauthoriedClass == Namespace + "UnauthoriedError";
    TypeOfNamespaced("UnauthoriedError");
    NewApiError(UnauthoriedClass, UnauthoriedCode, message.GetOr(UnauthoriedDefaultMessage))
  }

  /** `retrieve_hash` does not depend on the HTTP code. */
  lemma RetrieveHashHidesCode(e: ApiError, code: int)
    ensures RetrieveHash(e.(httpCode := code)) == RetrieveHash(e)
  {
  }

  /** The body a default forbidden error renders to. */
  lemma ForbiddenDefaultHash()
    ensures RetrieveHash(Forbidden(None)) ==
              map[ErrorKey := Str("ForbiddenError"), MessageKey := Str("Forbidden.")]
  {
  }

  /** The body a default unauthorised error renders to. */
  lemma UnauthoriedDefaultHash()
    ensures RetrieveHash(Unauthoried(None)) ==
              map[ErrorKey := Str("UnauthoriedError"), MessageKey := Str("Access denied.")]
  {
  }

  /** Only the first `ApiError::` counts: the type keeps any later one. */
  lemma TypeOfNestedNamespace()
    ensures TypeOf("ApiError::ApiError::X") == Some("ApiError::X")
  {
    assert "ApiError::ApiError::X" == Namespace + "ApiError::X";
    TypeOfNamespaced("ApiError::X");
  }

  /** A class outside the namespace has no type. */
  lemma TypeOfOutsideNamespace()
    ensures TypeOf("StandardError") == None
  {
    var s := "StandardError";
    forall i | 0 <= i <= |s| ensures !OccursAt(s, i, Namespace) {
      if i + |Namespace| <= |s| {
        assert s[..4] == "Stan" && s[i] == s[..4][i];
        assert s[i..i + |Namespace|][0] == s[i] != 'A';
      }
    }
  }
}

=== FILE: files_controller.dfy ===
/**
 * The files controller: the forbidden guard of `build_file_tree` and the
 * root-stripping map of `list`.
 *
 * File system access is not modelled: the browser root, the canonical path
 * of a request and the glob results are inputs.
 */
module FilesController {
  import opened Wrappers
  import opened Paths
  import opened ScopeCheck
  import opened ApiErrors

  /**
   * `build_file_tree` as it is meant to work, with the loop and line 12
   * corrected: reject a request whose canonical path lies outside the browser
   * root with the default forbidden error, before anything else is done. As
   * written no forbidden error can come out of it (see `AsWrittenRaises` and
   * `BuildFileTreeAsWritten`). The Ruby method returns `nil` after the guard
   * and hands nothing on; `Success(canonical)` only marks that the guard
   * passed.
   */
  function BuildFileTree(root: Path, canonical: Path): (r: Result<Path, ApiError>)
    ensures r.Failure? <==> !IsAncestorOrSelf(root, canonical)
    ensures r.Failure? ==> r.error.httpCode == 403
    ensures r.Failure? ==>
              RetrieveHash(r.error) == map[ErrorKey := Str("ForbiddenError"), MessageKey := Str("Forbidden.")]
    ensures r.Success? ==> r.value == canonical
  {
    ForbiddenDefaultHash();
    if !VerifyPathInScope(canonical, root) then Failure(Forbidden(None)) else Success(canonical)
  }

  /** What `build_file_tree` can raise: an API error, or Ruby's `NameError` for an undefined constant. */
  datatype Raised = Api(error: ApiError) | NameError(constant: string)

  /** The constant line 12 names; the class that exists is `ApiError::ForbiddenError`. */
  const MissingErrorClass: string := "ApiError::Forbidden"

  /**
   * `build_file_tree` as written at line 12 (with the intended scope check):
   * off scope, resolving `ApiError::Forbidden` raises `NameError` instead of
   * a forbidden error.
   */
  function BuildFileTreeAsWritten(root: Path, canonical: Path): (r: Result<Path, Raised>)
    ensures r.Failure? <==> !IsAncestorOrSelf(root, canonical)
    ensures r.Failure? ==> r.error == NameError("ApiError::Forbidden")
    ensures r.Success? ==> r.value == canonical
  {
    if !VerifyPathInScope(canonical, root) then Failure(NameError(MissingErrorClass)) else Success(canonical)
  }

  /**
   * `rescue_from ApiError::BaseApiError` in `ApiController`: an API error is
   * rendered with its code and hash; anything else escapes the controller.
   */
  function Rescue(raised: Raised): (rendered: Option<ApiError>)
    ensures rendered.Some? <==> raised.Api?
    ensures raised.Api? ==> rendered.value == raised.error
  {
    match raised
    case Api(e) => Some(e)
    case NameError(_) => None
  }

  /**
   * On `/srv/files-evil` with root `/srv/files`, the written guard raises a
   * `NameError` that the API controller does not rescue, so no 403 is
   * rendered; the corrected guard yields the rescued 403 forbidden error.
   */
  lemma ForbiddenNameErrorEscapes()
    ensures BuildFileTreeAsWritten(["srv", "files"], ["srv", "files-evil"]) ==
              Failure(NameError("ApiError::Forbidden"))
    ensures Rescue(BuildFileTreeAsWritten(["srv", "files"], ["srv", "files-evil"]).error) == None
    ensures BuildFileTree(["srv", "files"], ["srv", "files-evil"]).Failure?
    ensures Rescue(Api(BuildFileTree(["srv", "files"], ["srv", "files-evil"]).error)) == Some(Forbidden(None))
    ensures Forbidden(None).httpCode == 403
  {
    SiblingRejected();
  }

  /** The browser root itself passes the guard. */
  lemma RootIsBuilt(root: Path)
    ensures BuildFileTree(root, root) == Success(root)
  {
  }

  /** A sibling whose text merely starts with the root's text is forbidden. */
  lemma SiblingIsForbidden()
    ensures BuildFileTree(["srv", "files"], ["srv", "files-evil"]).Failure?
  {
    SiblingRejected();
  }

  /**
   * The strip `list` evidently intends: remove the root text when the path
   * starts with it, compared literally (the root is regex-escaped), and leave
   * other paths alone.
   */
  function StripRoot(root: string, path: string): (out: string)
    ensures root <= path ==> root + out == path
    ensures !(root <= path) ==> out == path
    ensures out != path <==> root != "" && root <= path
  {
    if root <= path then path[|root|..] else path
  }

  /** `list` with the intended strip, applied to each globbed path in order. */
  function List(root: string, paths: seq<string>): (listing: seq<string>)
    ensures |listing| == |paths|
    ensures forall i :: 0 <= i < |paths| && root <= paths[i] ==> root + listing[i] == paths[i]
    ensures forall i :: 0 <= i < |paths| && !(root <= paths[i]) ==> listing[i] == paths[i]
  {
    if paths == [] then []
    else [StripRoot(root, paths[0])] + List(root, paths[1..])
  }

  /** `list` works path by path: listing a concatenation concatenates the listings. */
  lemma {:induction false} ListConcat(root: string, a: seq<string>, b: seq<string>)
    ensures List(root, a + b) == List(root, a) + List(root, b)
    decreases |a|
  {
    if a == [] {
      assert a + b == b;
    } else {
      assert (a + b)[1..] == a[1..] + b;
      ListConcat(root, a[1..], b);
    }
  }

  /**
   * The strip as written: `gsub` with the pattern `^` followed by the escaped
   * root. In Ruby `^` matches at the start of every line, so the root is
   * removed at the start of the path and again after every newline in it.
   * `atLineStart` says whether the previous character was a newline (or
   * there was none).
   */
  function GsubLineStarts(root: string, s: string, atLineStart: bool): (out: string)
    ensures |out| <= |s|
    decreases |s|
  {
    if root != "" && atLineStart && root <= s then
      GsubLineStarts(root, s[|root|..], root[|root| - 1] == '\n')
    else if s == "" then ""
    else [s[0]] + GsubLineStarts(root, s[1..], s[0] == '\n')
  }

  /** `list` as written. */
  function ListAsWritten(root: string, paths: seq<string>): (listing: seq<string>)
    ensures |listing| == |paths|
    ensures forall i :: 0 <= i < |paths| ==> |listing[i]| <= |paths[i]|
  {
    if paths == [] then []
    else [GsubLineStarts(root, paths[0], true)] + ListAsWritten(root, paths[1..])
  }

  /** Away from line starts, a path without newlines is copied unchanged. */
  lemma {:induction false} GsubMidLine(root: string, s: string)
    requires '\n' !in s
    ensures GsubLineStarts(root, s, false) == s
    decreases |s|
  {
    if s != "" {
      assert s[0] in s;
      assert forall c :: c in s[1..] ==> c in s;
      GsubMidLine(root, s[1..]);
    }
  }

  /** On a path without newlines the written strip and the intended one agree. */
  lemma GsubAgreesWithoutNewlines(root: string, s: string)
    requires '\n' !in s
    ensures GsubLineStarts(root, s, true) == StripRoot(root, s)
  {
    if root != "" && root <= s {
      assert root[|root| - 1] == s[|root| - 1] && s[|root| - 1] in s;
      assert forall c :: c in s[|root|..] ==> c in s;
      GsubMidLine(root, s[|root|..]);
    } else if s != "" {
      assert s[0] in s;
      assert forall c :: c in s[1..] ==> c in s;
      GsubMidLine(root, s[1..]);
    }
  }

  /** On globbed paths without newlines, `list` as written equals the intended `list`. */
  lemma {:induction false} ListAgreesWithoutNewlines(root: string, paths: seq<string>)
    requires forall i :: 0 <= i < |paths| ==> '\n' !in paths[i]
    ensures ListAsWritten(root, paths) == List(root, paths)
    decreases |paths|
  {
    if paths != [] {
      GsubAgreesWithoutNewlines(root, paths[0]);
      ListAgreesWithoutNewlines(root, paths[1..]);
    }
  }

  /**
   * A directory named "a" followed by a newline under the root `/r`, holding
   * `r`, is globbed as "/r/a\n/r". The written strip also removes the second
   * `/r`, so the result no longer completes the path when the root is put back.
   */
  lemma GsubStripsAfterNewline()
    ensures GsubLineStarts("/r", "/r/a\n/r", true) == "/a\n"
    ensures "/r" + GsubLineStarts("/r", "/r/a\n/r", true) != "/r/a\n/r"
    ensures StripRoot("/r", "/r/a\n/r") == "/a\n/r"
  {
    var s := "/r/a\n/r";
    assert "/r" <= s;
    assert s[2..] == "/a\n/r";
    assert "/a\n/r"[1] != "/r"[1];
    assert "/a\n/r"[1..] == "a\n/r";
    assert "a\n/r"[1..] == "\n/r";
    assert "\n/r"[1..] == "/r";
    assert "/r"[2..] == "";
    assert GsubLineStarts("/r", "", false) == "";
    assert GsubLineStarts("/r", "/r", true) == "";
    assert GsubLineStarts("/r", "\n/r", false) == "\n";
    assert GsubLineStarts("/r", "a\n/r", false) == "a\n";
    assert GsubLineStarts("/r", "/a\n/r", true) == "/a\n";
  }

  /** The strip is literal: a `.` in the root matches only a `.`. */
  lemma StripIsLiteral()
    ensures StripRoot("/srv/a.b", "/srv/axb/c") == "/srv/axb/c"
    ensures StripRoot("/srv/a.b", "/srv/a.b/c") == "/c"
  {
    assert "/srv/a.b"[6] != "/srv/axb/c"[6];
    assert "/srv/a.b" <= "/srv/a.b/c";
  }
}

=== FILE: paths.dfy ===
/**
 * Canonical absolute POSIX paths, as the scope check compares them.
 *
 * A path is the sequence of its segments: `/srv/files` is `["srv", "files"]`
 * and the system root `/` is the empty sequence. Symbolic links, `.` and `..`
 * are assumed to be resolved already, so comparing two paths is comparing
 * their segment sequences.
 */
module Paths {

  type Path = seq<string>

  /** The file system root `/`. */
  const SystemRoot: Path := []

  /** A segment of a canonical path: not empty, no `/`, not `.` or `..`. */
  predicate IsSegment(s: string) {
    s != "" && s != "." && s != ".." && '/' !in s
  }

  predicate WellFormed(p: Path) {
    forall i :: 0 <= i < |p| ==> IsSegment(p[i])
  }

  /** `Pathname#parent` on a canonical absolute path: `/` is its own parent. */
  function Parent(p: Path): (q: Path)
    ensures p == SystemRoot ==> q == SystemRoot
    ensures p != SystemRoot ==> |q| == |p| - 1 && q + [p[|p| - 1]] == p
  {
    if p == SystemRoot then SystemRoot else p[..|p| - 1]
  }

  /** `anc` is `p` itself or one of the directories above it, compared segment by segment. */
  predicate IsAncestorOrSelf(anc: Path, p: Path) {
    anc <= p
  }

  /** The text of a path without its leading root: `/srv/files` for `["srv", "files"]`, "" for `/`. */
  function Join(p: Path): string {
    if p == [] then "" else "/" + p[0] + Join(p[1..])
  }

  /** The text `Pathname#to_s` prints for a canonical path. */
  function Render(p: Path): string {
    if p == SystemRoot then "/" else Join(p)
  }

  /** The string-prefix containment test that whole-path comparison replaces. */
  predicate TextualPrefix(root: Path, p: Path) {
    Render(root) <= Render(p)
  }

  lemma {:induction false} JoinAppend(a: Path, b: Path)
    ensures Join(a + b) == Join(a) + Join(b)
    decreases |a|
  {
    if a == [] {
      assert a + b == b;
    } else {
      assert (a + b)[1..] == a[1..] + b;
      JoinAppend(a[1..], b);
    }
  }

  lemma JoinShape(p: Path)
    requires WellFormed(p)
    ensures Join(p) == "" <==> p == []
    ensures p != [] ==> |Join(p)| >= 2 && Join(p)[0] == '/'
  {
    if p != [] {
      assert IsSegment(p[0]);
    }
  }

  /** Index of the first `/` in `s`, or `|s|` when there is none. */
  function FirstSlash(s: string): (k: nat)
    ensures k <= |s|
    ensures k < |s| ==> s[k] == '/'
    ensures '/' !in s[..k]
  {
    if s == "" then 0
    else if s[0] == '/' then 0
    else
      assert s[..1 + FirstSlash(s[1..])] == [s[0]] + s[1..][..FirstSlash(s[1..])];
      1 + FirstSlash(s[1..])
  }

  lemma {:induction false} SlashEndsSegment(x: string, t: string)
    requires '/' !in x
    requires t == "" || t[0] == '/'
    ensures FirstSlash(x + t) == |x|
    decreases |x|
  {
    if x == "" {
      assert x + t == t;
    } else {
      assert (x + t)[0] == x[0] && x[0] in x;
      assert (x + t)[1..] == x[1..] + t;
      SlashEndsSegment(x[1..], t);
    }
  }

  lemma {:induction false} FirstSlashOfExtension(l: string, r: string)
    requires FirstSlash(l) < |l| && l <= r
    ensures FirstSlash(r) == FirstSlash(l)
    decreases |l|
  {
    if l[0] != '/' {
      assert l[1..] <= r[1..];
      FirstSlashOfExtension(l[1..], r[1..]);
    }
  }

  /** Equal texts that each start with a segment start with the same segment. */
  lemma SameSegmentOfEqualTexts(x: string, y: string, t: string, u: string)
    requires IsSegment(x) && IsSegment(y)
    requires t == "" || t[0] == '/'
    requires u == "" || u[0] == '/'
    requires x + t == y + u
    ensures x == y
  {
    SlashEndsSegment(x, t);
    SlashEndsSegment(y, u);
    assert x == (x + t)[..|x|] == (y + u)[..|y|] == y;
  }

  /** A text that goes on past its first segment and starts another text shares that segment. */
  lemma SameSegmentOfPrefixText(x: string, y: string, t: string, u: string)
    requires IsSegment(x) && IsSegment(y)
    requires t != "" && t[0] == '/'
    requires u == "" || u[0] == '/'
    requires x + t <= y + u
    ensures x == y
  {
    SlashEndsSegment(x, t);
    SlashEndsSegment(y, u);
    FirstSlashOfExtension(x + t, y + u);
    assert x == (x + t)[..|x|] == (y + u)[..|y|] == y;
  }

  /** A common prefix can be dropped from both sides of `==` and `<=`. */
  lemma DropCommonPrefix(x: string, l: string, r: string)
    ensures x + l == x + r ==> l == r
    ensures x + l <= x + r ==> l <= r
  {
    assert (x + l)[|x|..] == l;
    assert (x + r)[|x|..] == r;
  }

  /** The text of a non-empty path is `/`, its first segment, and the text of the rest. */
  lemma JoinHeadTail(p: Path)
    requires WellFormed(p) && p != []
    ensures Join(p) == "/" + (p[0] + Join(p[1..]))
    ensures IsSegment(p[0]) && WellFormed(p[1..])
    ensures Join(p[1..]) == "" || Join(p[1..])[0] == '/'
  {
    JoinShape(p[1..]);
  }

  /** Equal texts, peeled by one segment: the segments and the remaining texts are equal. */
  lemma PeelEqualTexts(x: string, y: string, ta: string, tp: string)
    requires IsSegment(x) && IsSegment(y)
    requires ta == "" || ta[0] == '/'
    requires tp == "" || tp[0] == '/'
    requires "/" + (x + ta) == "/" + (y + tp)
    ensures x == y && ta == tp
  {
    DropCommonPrefix("/", x + ta, y + tp);
    SameSegmentOfEqualTexts(x, y, ta, tp);
    DropCommonPrefix(x, ta, tp);
  }

  /** Root text plus `/` as a prefix, peeled by one segment: same segment, and the condition passes on. */
  lemma PeelPrefixText(x: string, y: string, ta: string, tp: string)
    requires IsSegment(x) && IsSegment(y)
    requires ta == "" || ta[0] == '/'
    requires tp == "" || tp[0] == '/'
    requires "/" + (x + ta) + "/" <= "/" + (y + tp)
    ensures x == y && ta + "/" <= tp
  {
    assert "/" + (x + ta) + "/" == "/" + (x + (ta + "/"));
    DropCommonPrefix("/", x + (ta + "/"), y + tp);
    SameSegmentOfPrefixText(x, y, ta + "/", tp);
    DropCommonPrefix(x, ta + "/", tp);
  }

  /** Well-formed paths with the same text are the same path. */
  lemma {:induction false} JoinInjective(a: Path, p: Path)
    requires WellFormed(a) && WellFormed(p)
    requires Join(a) == Join(p)
    ensures a == p
    decreases |a|
  {
    JoinShape(a);
    JoinShape(p);
    if a != [] && p != [] {
      JoinHeadTail(a);
      JoinHeadTail(p);
      PeelEqualTexts(a[0], p[0], Join(a[1..]), Join(p[1..]));
      JoinInjective(a[1..], p[1..]);
      assert a == [a[0]] + a[1..];
      assert p == [p[0]] + p[1..];
    }
  }

  /** When the text of `a` followed by `/` starts the text of `p`, `a` is an ancestor of `p`. */
  lemma {:induction false} JoinSlashPrefixIsAncestor(a: Path, p: Path)
    requires WellFormed(a) && WellFormed(p)
    requires Join(a) + "/" <= Join(p)
    ensures a <= p
    decreases |a|
  {
    JoinShape(a);
    JoinShape(p);
    if a != [] && p != [] {
      JoinHeadTail(a);
      JoinHeadTail(p);
      PeelPrefixText(a[0], p[0], Join(a[1..]), Join(p[1..]));
      JoinSlashPrefixIsAncestor(a[1..], p[1..]);
      assert a == [a[0]] + a[1..];
      assert p == [p[0]] + p[1..];
    }
  }

  /**
   * Whole-path containment, read back as text: a well-formed root is an
   * ancestor-or-self of a well-formed path exactly when the root is `/`, the
   * two texts are equal, or the root's text followed by `/` starts the path's
   * text. A bare textual prefix test is not enough (see `SiblingSharesTextualPrefix`).
   */
  lemma TextualContainment(root: Path, p: Path)
    requires WellFormed(root) && WellFormed(p)
    ensures IsAncestorOrSelf(root, p) <==>
              root == SystemRoot || Render(p) == Render(root) || Render(root) + "/" <= Render(p)
  {
    JoinShape(root);
    JoinShape(p);
    if root <= p && root != [] {
      var rest := p[|root|..];
      assert p == root + rest;
      JoinAppend(root, rest);
      JoinShape(rest);
      if rest != [] {
        assert WellFormed(rest) by {
          forall i | 0 <= i < |rest| ensures IsSegment(rest[i]) {
            assert rest[i] == p[|root| + i];
          }
        }
        assert Join(rest)[0] == '/';
        assert Join(root) + "/" <= Join(p);
      }
    }
    if root != [] && Render(p) == Render(root) {
      JoinInjective(root, p);
    }
    if root != [] && Render(root) + "/" <= Render(p) {
      if p != [] {
        JoinSlashPrefixIsAncestor(root, p);
      }
    }
  }

  /** `/srv/files-evil` starts with the text `/srv/files` yet is not below `/srv/files`. */
  lemma SiblingSharesTextualPrefix()
    ensures TextualPrefix(["srv", "files"], ["srv", "files-evil"])
    ensures !IsAncestorOrSelf(["srv", "files"], ["srv", "files-evil"])
  {
    assert Render(["srv", "files-evil"]) == "/srv/files-evil";
    assert Render(["srv", "files"]) == "/srv/files";
    assert ["srv", "files-evil"][1] != ["srv", "files"][1];
  }
}

=== FILE: scope_check.dfy ===
/**
 * The scope check of the files controller (`verify_path_in_scope`): starting
 * from a canonical absolute path, walk towards `/` one parent at a time and
 * accept as soon as the walk meets the browser root.
 *
 * The loop is modelled under three readings, because the code as written
 * does not do what it evidently means to:
 *  - `AsWritten`: the body tests an undefined constant `ROOT_PATH`, so the
 *    first time the body runs Ruby raises `NameError`;
 *  - `ConstantFixed`: `ROOT_PATH` read as the defined `SYSTEM_ROOT_PATH`; the
 *    body still never moves the path, so the loop cannot finish;
 *  - `Intended`: the body also steps to the parent directory.
 * `VerifyPathInScope` is the intended check as a recursive function; the
 * rest of the model uses it.
 */
module ScopeCheck {
  import opened Paths

  datatype Reading = AsWritten | ConstantFixed | Intended

  /** Where the loop stands after evaluating its condition and (if entered) its body once. */
  datatype LoopState =
    | Looping(path: Path)
    | Returned(inScope: bool)
    | RaisedNameError(constant: string)

  /** The constant the loop body names but the class never defines. */
  const UndefinedConstant: string := "ROOT_PATH"

  /** One evaluation of `while path != browser_root_path` and, when entered, of its body. */
  function Iterate(reading: Reading, path: Path, root: Path): (s: LoopState)
    ensures path == root ==> s == Returned(true)
    ensures s == Returned(true) ==> path == root
    ensures reading != AsWritten && path == SystemRoot && path != root ==> s == Returned(false)
    ensures s == Returned(false) ==> path == SystemRoot && path != root && reading != AsWritten
    ensures s.Looping? ==> reading != AsWritten && path != root && path != SystemRoot
    ensures s.Looping? && reading == ConstantFixed ==> s.path == path
    ensures s.Looping? && reading == Intended ==> |s.path| == |path| - 1 && s.path <= path
    ensures s.RaisedNameError? <==> reading == AsWritten && path != root
  {
    if path == root then Returned(true)
    else match reading
      case AsWritten => RaisedNameError(UndefinedConstant)
      case ConstantFixed => if path == SystemRoot then Returned(false) else Looping(path)
      case Intended => if path == SystemRoot then Returned(false) else Looping(Parent(path))
  }

  /**
   * The loop run for at most `fuel` iterations; `Looping` means it has not
   * finished yet. Under every reading, an answer the loop does return is the
   * right one, and only the intended reading ever moves the path.
   */
  function Run(reading: Reading, path: Path, root: Path, fuel: nat): (s: LoopState)
    ensures s.Returned? ==> (s.inScope <==> IsAncestorOrSelf(root, path))
    ensures s.RaisedNameError? ==> reading == AsWritten && path != root
    ensures s.Looping? ==> IsAncestorOrSelf(s.path, path)
    ensures s.Looping? && reading != Intended ==> s.path == path
    decreases fuel
  {
    if fuel == 0 then Looping(path)
    else match Iterate(reading, path, root)
      case Looping(next) => Run(reading, next, root, fuel - 1)
      case done => done
  }

  /** The intended check: the walk from `path` meets `root` before it reaches `/`. */
  function VerifyPathInScope(path: Path, root: Path): (inScope: bool)
    ensures inScope <==> IsAncestorOrSelf(root, path)
    decreases |path|
  {
    if path == root then true
    else if path == SystemRoot then false
    else VerifyPathInScope(Parent(path), root)
  }

  /** A path equal to the browser root is accepted on the first test, under every reading. */
  lemma RootAcceptedAtOnce(reading: Reading, root: Path, fuel: nat)
    requires fuel > 0
    ensures Run(reading, root, root, fuel) == Returned(true)
  {
  }

  /** As written, any other path makes Ruby raise `NameError` on `ROOT_PATH`. */
  lemma AsWrittenRaises(path: Path, root: Path, fuel: nat)
    requires fuel > 0 && path != root
    ensures Run(AsWritten, path, root, fuel) == RaisedNameError("ROOT_PATH")
  {
  }

  /**
   * With only the constant fixed, a path that is neither the browser root nor
   * `/` never leaves the loop: however many iterations run, it is still looping
   * on the same path.
   */
  lemma {:induction false} ConstantFixedNeverReturns(path: Path, root: Path, fuel: nat)
    requires path != root && path != SystemRoot
    ensures Run(ConstantFixed, path, root, fuel) == Looping(path)
    decreases fuel
  {
    if fuel > 0 {
      ConstantFixedNeverReturns(path, root, fuel - 1);
    }
  }

  /** With only the constant fixed, `/` outside the browser root is rejected at once. */
  lemma ConstantFixedRejectsSystemRoot(root: Path, fuel: nat)
    requires fuel > 0 && root != SystemRoot
    ensures Run(ConstantFixed, SystemRoot, root, fuel) == Returned(false)
  {
  }

  /** The intended loop and the recursive check take the same steps. */
  lemma {:induction false} IntendedRunsTheCheck(path: Path, root: Path, fuel: nat)
    requires fuel > |path|
    ensures Run(Intended, path, root, fuel) == Returned(VerifyPathInScope(path, root))
    decreases |path|
  {
    if path == root {
      assert Iterate(Intended, path, root) == Returned(true);
    } else if path == SystemRoot {
      assert Iterate(Intended, path, root) == Returned(false);
    } else {
      var next := Parent(path);
      assert Iterate(Intended, path, root) == Looping(next);
      assert VerifyPathInScope(path, root) == VerifyPathInScope(next, root);
      IntendedRunsTheCheck(next, root, fuel - 1);
    }
  }

  /**
   * With the parent step, the loop finishes within `|path| + 1` iterations and
   * returns exactly the recursive check, that is, whether the browser root is
   * an ancestor-or-self of the path.
   */
  lemma IntendedTerminates(path: Path, root: Path, fuel: nat)
    requires fuel > |path|
    ensures Run(Intended, path, root, fuel) == Returned(VerifyPathInScope(path, root))
    ensures Run(Intended, path, root, fuel) == Returned(IsAncestorOrSelf(root, path))
  {
    IntendedRunsTheCheck(path, root, fuel);
  }

  /** Reaching `/` without meeting the browser root means out of scope. */
  lemma SystemRootOutOfScope(root: Path)
    requires root != SystemRoot
    ensures !VerifyPathInScope(SystemRoot, root)
  {
  }

  /**
   * Paths are compared whole: `/srv/files-evil` is rejected for the browser
   * root `/srv/files` although its text starts with the root's text.
   */
  lemma SiblingRejected()
    ensures !VerifyPathInScope(["srv", "files-evil"], ["srv", "files"])
    ensures TextualPrefix(["srv", "files"], ["srv", "files-evil"])
  {
    SiblingSharesTextualPrefix();
  }

  /** For well-formed paths, the walk agrees with the correct textual test (root text plus `/`). */
  lemma ScopeAsText(path: Path, root: Path)
    requires WellFormed(path) && WellFormed(root)
    ensures VerifyPathInScope(path, root) <==>
              root == SystemRoot || Render(path) == Render(root) || Render(root) + "/" <= Render(path)
  {
    TextualContainment(root, path);
  }
}

=== FILE: wrappers.dfy ===
/** Failure-carrying values shared by the other modules. */
module Wrappers {

  /** An optional value: `None` stands for Ruby's `nil` or an omitted argument. */
  datatype Option<+T> = None | Some(value: T) {

    /** The wrapped value, or `default` when there is none. */
    function GetOr(default: T): T {
      match this
      case Some(v) => v
      case None => default
    }
  }

  /** Either a value or the error a Ruby method would have raised. */
  datatype Result<+T, +E> = Success(value: T) | Failure(error: E)
}
